=== FILE: README.md ===
# Championify renderer entry point, modelled in Dafny

Championify imports "item sets" (game-client configuration files) into a
League of Legends install folder. Its Electron renderer entry point,
`src/index.js`, ties the pieces together. At startup it waits for the view
manager and interprets the update check: it can relaunch itself elevated,
end the session with an update error, show the major or minor update view,
or run the headless automation selected by command-line switches
(`--delete`, `--import`, `--autorun`, `--close`, `--startLeague`).
After that it reacts to clicks: browse for the install folder, import,
delete, and start the game client.

This project models that decision logic as pure functions. Every
collaborator becomes an input value:

- the settings store's install path and executable name;
- the option parser's switches;
- the update check's `(version, major)`;
- the result of `verifySettings`;
- the engine outcomes;
- the number of animation callbacks;
- the platform.

Every side effect becomes a value of `Values.Effect`: a quit, a scheduled
quit, a spawn, a dialog request, an engine call, a view transition or a
session end. The two re-entrancy flags (`folder_dialog_open` and the
per-import `fadeup`) are small state records with step functions.

Files, one module each:

- `values.dfy` — `Values`: inputs, effects, constants (the 500 ms quit
  delay, the `--startAsAdmin` marker, the update-error message), and
  JavaScript truthiness of stored strings (`Present`: `undefined` and `""`
  are falsy).
- `guards.dfy` — `Guards`: the folder-dialog flag and the fade flag.
- `launch.dfy` — `Launch`: `startLeague`.
- `pipelines.dfy` — `Pipelines`: `importItemSets`, `deleteItemSets`, the
  `#import_btn` handler.
- `automation.dfy` — `Automation`: `executeOptionParameters`.
- `startup.dfy` — `Startup`: the update handshake.
- `events.dfy` — `Events`: dispatch of the click handlers that carry logic.

Three behaviours of the code are worth knowing, because a reader might
expect otherwise:

- With `--close` or `--autorun`, the automated import quits even when the
  install-path gate failed and the import resolved `false` (`src/index.js`
  lines 88-90 with 157-158): the gate does not keep the process
  interactive. `Automation.GateDoesNotStopExit` states this.
- The delete engine's promise has no rejection handler (line 122): nothing
  in this file routes a rejected delete to the session terminator
  `EndSession`, unlike a failed import (lines 108-109).
- The elevated relaunch passes `--startAsAdmin` and nothing else (line
  176). Read by the option parser as described under "## Left out", the
  relaunched process sees none of the original switches, in particular
  not `--update`. `Startup.RelaunchedSwitches` states this, and
  `Startup.RelaunchShowsUpdateView` states what follows: the relaunched
  process calls `majorUpdate` or `minorUpdate` instead of taking the
  `--update` branch again.

## Model

| member | source | states |
|---|---|---|
| Guards.SelectionMode | src/index.js:57-58 | the dialog picks a directory exactly on win32 and a file everywhere else |
| Guards.OpenFolder | src/index.js:54-62 | a browse request while the dialog is open does nothing; otherwise it raises the flag and requests exactly one dialog in the platform's mode |
| Guards.DialogClosed | src/index.js:63-66 | the callback always clears the flag; a selection goes to install-path validation and no selection produces no effect |
| Guards.DialogBalance | src/index.js:53-66 | over any sequence of browse clicks and callbacks, dialogs requested plus the initial flag equal callbacks that closed an open dialog plus the final flag |
| Guards.AtMostOneOutstanding | src/index.js:53-66 | starting closed, at most one more dialog is requested than callbacks have closed, so at most one dialog is outstanding |
| Guards.BrowseAfterClose | src/index.js:55-64 | after any callback, whether or not a path was chosen, the next browse request opens a dialog |
| Guards.FadeComplete | src/index.js:100-105 | one `onComplete` callback sets the flag and reveals the log only if it was not yet set |
| Guards.FadeCallbacks | src/index.js:93-106 | n callbacks reveal the log once if the flag started clear and n > 0, never otherwise, and leave the flag set iff it was set or n > 0 |
| Guards.RevealedOnce | src/index.js:93-106 | N >= 1 callbacks in one import attempt give exactly one reveal of the process log |
| Launch.StartLeague | src/index.js:130-145 | a spawn happens iff on darwin or an executable is stored and the path joins, and then exactly one quit is scheduled after 500 ms; darwin opens the install path; without an executable the error is logged, the launch button shows an error, and nothing spawns or quits |
| Launch.LaunchFollowsCommand | src/index.js:134-139 | a launch spawns exactly the command the platform table forms, followed by the delayed quit, and does neither spawn nor quit when no command can be formed |
| Pipelines.StartedOrder | src/index.js:94-108 | after `verifySettings`, the version buttons hide, then the options fade, then the engine starts |
| Pipelines.Started | src/index.js:93-108 | past the gate and verification, the engine starts exactly once and the log is revealed exactly once if any animation callback arrives |
| Pipelines.EngineRun | src/index.js:93-110 | a full engine run calls the engine once, reveals the log at most once, ends the session exactly when the engine rejects, and resolves to the engine's or the terminator's value |
| Pipelines.EngineRunStays | src/index.js:93-110 | an import past the gate never warns, deletes, spawns or quits |
| Pipelines.ImportItemSets | src/index.js:87-110 | without a stored path, only the warning is shown and the import resolves falsy before `verifySettings`; the engine runs iff the path is stored and the settings verify; a truthy result implies the engine ran |
| Pipelines.ImportGuards | src/index.js:93-110 | in every import attempt, the engine runs at most once, the log is revealed once iff the engine ran and a callback arrived, and the session ends iff the engine ran and rejected |
| Pipelines.ImportStays | src/index.js:87-110 | the warning appears iff no path is stored, and an import never quits, deletes or spawns |
| Pipelines.DeleteItemSets | src/index.js:117-124 | the notification opens and then the delete engine is called with confirmation, exactly once, iff a path is stored; the warning appears otherwise; the check mark appears once, last, iff the path is stored and the delete resolves; nothing else happens |
| Pipelines.GateBlocksEngines | src/index.js:87-123 | with no stored path, import and delete both produce only the warning, call no engine, and import resolves falsy |
| Pipelines.ImportButton | src/index.js:220-224 | the import button runs the import's effects first, then completes the view iff the import resolved truthy, and nothing else |
| Pipelines.ImportButtonStays | src/index.js:87-224 | a click on the import button calls the engine at most once, never quits, deletes or launches, and completes the view only after the engine ran |
| Automation.AfterImport | src/index.js:156-163 | after an automated import, `--close` or `--autorun` quit whatever the result; otherwise a truthy result completes the view first, and a falsy one adds nothing |
| Automation.AfterImportLaunches | src/index.js:159-162 | after a truthy import without quitting, the client launch follows the view completion iff `--startLeague` is given, and a spawn happens iff a launch command can also be formed |
| Automation.ExecuteOptionParameters | src/index.js:152-165 | `--delete` wins over `--import` and `--autorun`; with none of the three switches nothing happens; a headless import's own effects come first |
| Automation.EnginesFollowSwitches | src/index.js:153-158 | the delete engine runs only under `--delete`, and the import engine only under `--import` or `--autorun` without `--delete` |
| Automation.QuitsWhateverTheResult | src/index.js:155-158 | under `--close` or `--autorun`, the import's effects are followed by the quit and nothing else: no view completion and no spawn |
| Automation.GateDoesNotStopExit | src/index.js:87-165 | with no stored path, automation shows the warning and touches no engine, yet exits iff it is a headless import under `--close` or `--autorun` |
| Automation.CompletesThenLaunches | src/index.js:155-163 | without `--close` and `--autorun`, the view completes iff the import resolved truthy, then the launch runs once iff `--startLeague`; a falsy import adds no effect |
| Automation.AutomationNeverUpdates | src/index.js:152-165 | no effect of automation belongs to the update handshake |
| Startup.Handshake | src/index.js:172-191 | with a version and `--update`: an elevated relaunch with `--startAsAdmin` on win32 when not yet elevated, an UpdateError session end otherwise; with a version and no `--update`: the major or minor update view; automation only without a version |
| Startup.ExactlyOneBranch | src/index.js:174-189 | for every input exactly one of the five handshake conditions holds |
| Startup.AutomationOnlyWithoutVersion | src/index.js:173-189 | the result contains a handshake effect iff the check reports a version; in that case it is a single effect that touches no engine, spawns nothing and issues no quit of its own |
| Startup.NoRelaunchLoop | src/index.js:174-182 | an already-elevated process still asking for `--update` ends in the UpdateError rather than relaunching |
| Startup.RelaunchedSwitches | src/index.js:174-179 | the elevated relaunch carries only the `--startAsAdmin` marker, so the relaunched process reads itself as elevated and sees no update or automation switch |
| Startup.RelaunchShowsUpdateView | src/index.js:174-186 | the process relaunched from the arguments the handshake passes, finding the same version, shows the major or minor update view |
| Events.Dispatch | src/index.js:197-246 | only browse clicks and dialog callbacks change the dialog flag: browse leaves it raised and a callback leaves it cleared |
| Events.HandlersStayInTheirLane | src/index.js:197-246 | only the import button runs the import engine, only the delete button the delete engine, and only the start button leaves the process |
| Events.FlagOnlyFollowsDialog | src/index.js:197-246 | over a whole session of clicks, the dialog flag equals what the dialog guard alone makes of the browse clicks and callbacks |

## Left out

- Rendering is not modelled: jQuery DOM manipulation, CSS classes, transitions and the warning text. Each appears only as an abstract effect.
- Promise and timer timing is not modelled. Each operation lists its effects in one fixed order: animation callbacks after the engine starts, the session end after them. Interleavings of asynchronous callbacks are not explored. The 500 ms delay is a value carried by the scheduled-quit effect.
- Shell command strings are not modelled: quoting in `exec` and `path.join` normalisation. A command records the path and executable it was formed from.
- The bodies of these collaborators are not part of this model: `championify.run`, `delete` and `verifySettings`; `pathManager.checkInstallPath`; `updateManager.check`, `majorUpdate` and `minorUpdate`; `EndSession`; `preferences`; `T`; the option parser. Their answers are inputs.
  - `EndSession`'s return value after an engine rejection is an input too. Its truthiness decides whether the import counts as completed.
- The install path typed into `#install_path` is not modelled. That handler only forwards the typed value to the path validator.
- Handlers without decision logic are left out: the external links and the log file (lines 201-218 and 252-254), the window's minimize and close buttons (lines 234-242, the latter quitting the app), and `#back_to_main` (lines 248-250), which returns to the main view through the view manager.
- The option parser's body is not part of this model. `Startup.SwitchesOf` reads a command line as: each switch holds exactly when its flag is among the arguments. The relaunch lemmas, and the statement above that the relaunched process sees none of the original switches, rely on that reading.
- Locale loading, the version log line and the system-button choice at startup are left out (lines 33-47): they are pure wiring.
- A `startLeague` outside macOS with an executable stored but no install path at all is modelled as producing no effect. In the code, `path.join` throws a TypeError on `undefined`, so neither the spawn nor the quit happens.
- Exceptions thrown synchronously by collaborators (for example `verifySettings` throwing) are not modelled.

=== FILE: automation.dfy ===
/** `executeOptionParameters`: the headless run selected by command-line
    switches, once the update handshake has let automation through. */
module Automation {
  import opened Values
  import opened Pipelines
  import Launch

  /** The effects that can follow an automated import. */
  predicate AfterStage(x: Effect)
  {
    x == Quit || x == CompleteView || Launch.LaunchStage(x)
  }

  /** What follows an automated import once its promise has resolved to
      `completed`: `--close` or `--autorun` quit whatever the result;
      otherwise a truthy result completes the view and, with
      `--startLeague`, launches the client afterwards. */
  function AfterImport(f: Flags, e: Env, completed: bool): (r: seq<Effect>)
    ensures forall x :: x in r ==> AfterStage(x)
    ensures f.close || f.autorun ==> r == [Quit]
    ensures !f.close && !f.autorun ==> Quit !in r
    ensures !f.close && !f.autorun && completed ==> |r| > 0 && r[0] == CompleteView && CompleteView !in r[1..]
    ensures !f.close && !f.autorun && !completed ==> r == []
  {
    if f.close || f.autorun then [Quit]
    else if completed then
      var launched := if f.startLeague then Launch.StartLeague(e.platform, e.installPath, e.executable) else [];
      assert forall x :: x in launched ==> Launch.LaunchStage(x);
      var r := [CompleteView] + launched;
      assert r[1..] == launched;
      r
    else []
  }

  /** After a truthy import without `--close` or `--autorun`, the client is
      launched exactly when `--startLeague` is given and a launch command
      can be formed. */
  lemma AfterImportLaunches(f: Flags, e: Env)
    requires !f.close && !f.autorun
    ensures var r := AfterImport(f, e, true);
            && (f.startLeague ==> r == [CompleteView] + Launch.StartLeague(e.platform, e.installPath, e.executable))
            && (!f.startLeague ==> r == [CompleteView])
            && (Spawns(r) <==> f.startLeague && Launch.LaunchCommand(e.platform, e.installPath, e.executable).Some?)
  {
  }

  /** `executeOptionParameters`. `--delete` wins over `--import` and
      `--autorun`; with none of the three nothing happens. */
  function ExecuteOptionParameters(f: Flags, e: Env): (r: seq<Effect>)
    ensures f.deleteSets ==> r == DeleteItemSets(e)
    ensures !f.deleteSets && !f.importSets && !f.autorun ==> r == []
    ensures ImportsHeadless(f) ==> ImportItemSets(e).effects <= r
  {
    if f.deleteSets then DeleteItemSets(e)
    else if f.importSets || f.autorun then
      var imported := ImportItemSets(e);
      imported.effects + AfterImport(f, e, imported.completed)
    else []
  }

  /** Which switches an automated run takes as an import. */
  predicate ImportsHeadless(f: Flags)
  {
    !f.deleteSets && (f.importSets || f.autorun)
  }

  /** Every effect of an import attempt is an import stage. */
  lemma ImportStaged(e: Env)
    ensures forall x :: x in ImportItemSets(e).effects ==> x == FolderWarning || ImportStage(x)
  {
  }

  /** The engines run only as the switches select: the delete engine only
      under `--delete`, the import engine only under `--import` or
      `--autorun` without `--delete`. */
  lemma EnginesFollowSwitches(f: Flags, e: Env)
    ensures var r := ExecuteOptionParameters(f, e);
            && (CallDelete(true) in r ==> f.deleteSets)
            && (CallRun in r ==> ImportsHeadless(f))
  {
    var r := ExecuteOptionParameters(f, e);
    if f.deleteSets {
      assert r == DeleteItemSets(e);
    } else if ImportsHeadless(f) {
      var imported := ImportItemSets(e);
      var after := AfterImport(f, e, imported.completed);
      assert r == imported.effects + after;
      ImportStays(e);
      assert CallDelete(true) !in after by {
        assert !AfterStage(CallDelete(true));
      }
    } else {
      assert r == [];
    }
  }

  /** `--close` and `--autorun` quit after the import whatever it resolved
      to, never completing the view or launching the client. */
  lemma QuitsWhateverTheResult(f: Flags, e: Env)
    requires ImportsHeadless(f) && (f.close || f.autorun)
    ensures var r := ExecuteOptionParameters(f, e);
            Quit in r && r[|r| - 1] == Quit && CompleteView !in r && !Spawns(r)
    ensures ExecuteOptionParameters(f, e) == ImportItemSets(e).effects + [Quit]
  {
    var imported := ImportItemSets(e);
    ImportStaged(e);
    QuitAfterStaged(imported.effects);
  }

  lemma QuitAfterStaged(effects: seq<Effect>)
    requires forall x :: x in effects ==> x == FolderWarning || ImportStage(x)
    ensures var r := effects + [Quit];
            Quit in r && r[|r| - 1] == Quit && CompleteView !in r && !Spawns(r)
  {
    var r := effects + [Quit];
    forall x | x in r
      ensures x != CompleteView && !x.Spawn?
    {
      assert x in effects || x == Quit;
    }
  }

  /** Without a stored path no engine is touched and the warning is shown;
      yet `--close` or `--autorun` still quit: the gate does not stop the
      exit. */
  lemma GateDoesNotStopExit(f: Flags, e: Env)
    requires !PathGate(e) && (f.deleteSets || f.importSets || f.autorun)
    ensures var r := ExecuteOptionParameters(f, e);
            FolderWarning in r && !TouchesEngine(r) && !Spawns(r)
            && (Exits(r) <==> ImportsHeadless(f) && (f.close || f.autorun))
  {
  }

  /** An automated import that does not quit: the view completes exactly
      when the import resolved truthy, the client is launched once right
      after it only with `--startLeague`, and a falsy import adds nothing. */
  lemma CompletesThenLaunches(f: Flags, e: Env)
    requires ImportsHeadless(f) && !f.close && !f.autorun
    ensures var r := ExecuteOptionParameters(f, e);
            var imported := ImportItemSets(e);
            && (CompleteView in r <==> imported.completed)
            && (!imported.completed ==> r == imported.effects)
            && (imported.completed && f.startLeague ==>
                  r == imported.effects + [CompleteView] + Launch.StartLeague(e.platform, e.installPath, e.executable))
            && (imported.completed && !f.startLeague ==> r == imported.effects + [CompleteView])
  {
    HeadlessSequence(f, e);
    var imported := ImportItemSets(e);
    CompletedSequence(f, e, imported.effects, imported.completed);
  }

  /** A headless import is the import's effects followed by what comes
      after it. */
  lemma HeadlessSequence(f: Flags, e: Env)
    requires ImportsHeadless(f)
    ensures ExecuteOptionParameters(f, e) == ImportItemSets(e).effects + AfterImport(f, e, ImportItemSets(e).completed)
  {
  }

  /** What follows an import that contains no completion, without
      `--close` or `--autorun`. */
  lemma CompletedSequence(f: Flags, e: Env, effects: seq<Effect>, completed: bool)
    requires !f.close && !f.autorun && CompleteView !in effects
    ensures var r := effects + AfterImport(f, e, completed);
            && (CompleteView in r <==> completed)
            && (!completed ==> r == effects)
            && (completed && f.startLeague ==>
                  r == effects + [CompleteView] + Launch.StartLeague(e.platform, e.installPath, e.executable))
            && (completed && !f.startLeague ==> r == effects + [CompleteView])
  {
    var after := AfterImport(f, e, completed);
    CompletionFollows(effects, after);
    if completed {
      AfterImportLaunches(f, e);
      if f.startLeague {
        var launched := Launch.StartLeague(e.platform, e.installPath, e.executable);
        assert effects + ([CompleteView] + launched) == effects + [CompleteView] + launched;
      }
    } else {
      assert effects + [] == effects;
    }
  }

  /** The view completes in an import followed by more effects exactly when
      it completes in the latter. */
  lemma CompletionFollows(effects: seq<Effect>, after: seq<Effect>)
    requires CompleteView !in effects
    ensures CompleteView in effects + after <==> CompleteView in after
  {
    if CompleteView in effects + after {
      var i :| 0 <= i < |effects + after| && (effects + after)[i] == CompleteView;
      if i >= |effects| {
        assert after[i - |effects|] == CompleteView;
      }
    }
  }

  /** Nothing automation does belongs to the update handshake. */
  lemma AutomationNeverUpdates(f: Flags, e: Env)
    ensures forall x :: x in ExecuteOptionParameters(f, e) ==> !IsUpdateEffect(x)
  {
    if ImportsHeadless(f) {
      HeadlessNeverUpdates(f, e);
    }
  }

  lemma HeadlessNeverUpdates(f: Flags, e: Env)
    requires ImportsHeadless(f)
    ensures forall x :: x in ExecuteOptionParameters(f, e) ==> !IsUpdateEffect(x)
  {
    var imported := ImportItemSets(e);
    var after := AfterImport(f, e, imported.completed);
    assert ExecuteOptionParameters(f, e) == imported.effects + after;
    ImportStaged(e);
    AfterImportNeverUpdates(f, e, imported.completed);
    NoUpdateInEither(imported.effects, after);
  }

  lemma NoUpdateInEither(a: seq<Effect>, b: seq<Effect>)
    requires forall x :: x in a ==> x == FolderWarning || ImportStage(x)
    requires forall x :: x in b ==> !IsUpdateEffect(x)
    ensures forall x :: x in a + b ==> !IsUpdateEffect(x)
  {
    forall x | x in a + b
      ensures !IsUpdateEffect(x)
    {
      assert x in a || x in b;
    }
  }

  lemma AfterImportNeverUpdates(f: Flags, e: Env, completed: bool)
    ensures forall x :: x in AfterImport(f, e, completed) ==> !IsUpdateEffect(x)
  {
  }
}

=== FILE: events.dfy ===
/** The user-interface handlers of the entry point that carry decision
    logic: `#browse`, the folder dialog's callback, `#import_btn`,
    `#delete_btn` and `#start_league`. */
module Events {
  import opened Values
  import Guards
  import Pipelines
  import Launch

  datatype UiEvent =
    | BrowseClick
    | DialogCallback(selection: Option<seq<string>>)
    | ImportClick
    | DeleteClick
    | StartLeagueClick

  /** One handler run: the dialog flag is the only state that outlives a
      handler; everything else comes from the collaborators in `e`. */
  function Dispatch(s: Guards.DialogState, ev: UiEvent, e: Env): (r: Guards.Step<Guards.DialogState>)
    ensures !ev.BrowseClick? && !ev.DialogCallback? ==> r.state == s
    ensures ev.BrowseClick? ==> r.state.open
    ensures ev.DialogCallback? ==> !r.state.open
  {
    match ev
    case BrowseClick => Guards.OpenFolder(s, e.platform)
    case DialogCallback(selection) => Guards.DialogClosed(s, selection)
    case ImportClick => Guards.Step(s, Pipelines.ImportButton(e))
    case DeleteClick => Guards.Step(s, Pipelines.DeleteItemSets(e))
    case StartLeagueClick => Guards.Step(s, Launch.StartLeague(e.platform, e.installPath, e.executable))
  }

  /** A session of handler runs, each with its own collaborator answers,
      on one platform. */
  function RunEvents(s: Guards.DialogState, evs: seq<(UiEvent, Env)>): Guards.DialogState
    decreases |evs|
  {
    if evs == [] then s
    else RunEvents(Dispatch(s, evs[0].0, evs[0].1).state, evs[1..])
  }

  /** The dialog events of a session, as the folder-dialog guard sees them. */
  function DialogEvents(evs: seq<(UiEvent, Env)>): seq<Guards.DialogEvent>
    decreases |evs|
  {
    if evs == [] then []
    else
      match evs[0].0
      case BrowseClick => [Guards.Browse] + DialogEvents(evs[1..])
      case DialogCallback(selection) => [Guards.Closed(selection)] + DialogEvents(evs[1..])
      case _ => DialogEvents(evs[1..])
  }

  /** Imports, deletes and launches leave the dialog flag alone: over a
      whole session the flag is what the dialog guard alone makes of the
      browse clicks and dialog callbacks. */
  lemma {:induction false} FlagOnlyFollowsDialog(s: Guards.DialogState, p: Platform, evs: seq<(UiEvent, Env)>)
    requires forall i :: 0 <= i < |evs| ==> evs[i].1.platform == p
    ensures RunEvents(s, evs) == Guards.RunDialog(s, p, DialogEvents(evs)).state
    decreases |evs|
  {
    if evs != [] {
      var next := Dispatch(s, evs[0].0, evs[0].1).state;
      assert forall i :: 0 <= i < |evs[1..]| ==> evs[1..][i].1.platform == p by {
        forall i | 0 <= i < |evs[1..]|
          ensures evs[1..][i].1.platform == p
        {
          assert evs[1..][i] == evs[i + 1];
        }
      }
      FlagOnlyFollowsDialog(next, p, evs[1..]);
      var rest := DialogEvents(evs[1..]);
      match evs[0].0
      case BrowseClick =>
        assert DialogEvents(evs) == [Guards.Browse] + rest;
        assert ([Guards.Browse] + rest)[1..] == rest;
      case DialogCallback(selection) =>
        assert DialogEvents(evs) == [Guards.Closed(selection)] + rest;
        assert ([Guards.Closed(selection)] + rest)[1..] == rest;
      case _ =>
        assert DialogEvents(evs) == rest;
    }
  }

  /** Each engine and the exit belong to one button: only `#import_btn`
      runs the import engine, only `#delete_btn` the delete engine, and
      only `#start_league` leaves the process. */
  lemma HandlersStayInTheirLane(s: Guards.DialogState, ev: UiEvent, e: Env)
    ensures var effects := Dispatch(s, ev, e).effects;
            && (CallRun in effects ==> ev.ImportClick?)
            && (CallDelete(true) in effects ==> ev.DeleteClick?)
            && (Exits(effects) ==> ev.StartLeagueClick?)
  {
    match ev
    case ImportClick =>
      Pipelines.ImportButtonStays(e);
    case StartLeagueClick =>
      var effects := Launch.StartLeague(e.platform, e.installPath, e.executable);
      assert !Launch.LaunchStage(CallRun) && !Launch.LaunchStage(CallDelete(true));
    case _ =>
  }
}

=== FILE: guards.dfy ===
/** The two re-entrancy flags of the entry point: `folder_dialog_open`, which
    keeps at most one native folder dialog outstanding, and the per-import
    `fadeup` flag, which lets the process log be revealed once however many
    animation callbacks arrive. */
module Guards {
  import opened Values

  /** A guard's new state and the effects of one step. */
  datatype Step<S> = Step(state: S, effects: seq<Effect>)

  /** The process-wide `folder_dialog_open` flag. */
  datatype DialogState = DialogState(open: bool)

  const Idle := DialogState(false)

  /** Directories are picked on Windows; elsewhere the user picks the client
      application itself. */
  function SelectionMode(p: Platform): (m: DialogMode)
    ensures m == OpenDirectory <==> p == Win32
    ensures m == OpenFile <==> p != Win32
  {
    if p == Win32 then OpenDirectory else OpenFile
  }

  /** `openFolder`: a request while a dialog is outstanding changes nothing;
      otherwise exactly one dialog is requested and the flag is raised. */
  function OpenFolder(s: DialogState, p: Platform): (r: Step<DialogState>)
    ensures r.state.open
    ensures s.open ==> r.effects == []
    ensures !s.open ==> |r.effects| == 1 && r.effects[0].ShowOpenDialog? && r.effects[0].mode == SelectionMode(p)
  {
    if s.open then Step(s, [])
    else Step(DialogState(true), [ShowOpenDialog(SelectionMode(p))])
  }

  /** The dialog's callback: whether or not something was chosen, the flag
      drops; a chosen selection (Electron hands over an array, always
      truthy) goes to install-path validation and nothing else happens. */
  function DialogClosed(s: DialogState, selection: Option<seq<string>>): (r: Step<DialogState>)
    ensures !r.state.open
    ensures selection.None? ==> r.effects == []
    ensures selection.Some? ==> r.effects == [CheckInstallPath(selection.value)]
  {
    Step(Idle, if selection.Some? then [CheckInstallPath(selection.value)] else [])
  }

  datatype DialogEvent = Browse | Closed(selection: Option<seq<string>>)

  function DialogStep(s: DialogState, p: Platform, ev: DialogEvent): Step<DialogState>
  {
    match ev
    case Browse => OpenFolder(s, p)
    case Closed(sel) => DialogClosed(s, sel)
  }

  /** The flag and the effects after a sequence of browse clicks and dialog
      callbacks. */
  function RunDialog(s: DialogState, p: Platform, evs: seq<DialogEvent>): Step<DialogState>
    decreases |evs|
  {
    if evs == [] then Step(s, [])
    else
      var first := DialogStep(s, p, evs[0]);
      var rest := RunDialog(first.state, p, evs[1..]);
      Step(rest.state, first.effects + rest.effects)
  }

  /** Number of native dialogs requested. */
  function Requests(effects: seq<Effect>): nat
    decreases |effects|
  {
    if effects == [] then 0
    else (if effects[0].ShowOpenDialog? then 1 else 0) + Requests(effects[1..])
  }

  /** Callbacks in `evs` that close a dialog which was actually open. */
  function ClosesWhileOpen(s: DialogState, p: Platform, evs: seq<DialogEvent>): nat
    decreases |evs|
  {
    if evs == [] then 0
    else
      (if s.open && evs[0].Closed? then 1 else 0)
      + ClosesWhileOpen(DialogStep(s, p, evs[0]).state, p, evs[1..])
  }

  function B2N(b: bool): nat { if b then 1 else 0 }

  lemma {:induction false} RequestsAppend(a: seq<Effect>, b: seq<Effect>)
    ensures Requests(a + b) == Requests(a) + Requests(b)
    decreases |a|
  {
    if a != [] {
      assert (a + b)[1..] == a[1..] + b;
      RequestsAppend(a[1..], b);
    } else {
      assert a + b == b;
    }
  }

  lemma StepRequests(s: DialogState, p: Platform, ev: DialogEvent)
    ensures Requests(DialogStep(s, p, ev).effects) == (if ev.Browse? && !s.open then 1 else 0)
  {
  }

  /** Conservation of outstanding dialogs: every dialog requested is either
      closed by a callback or still open at the end, and one is open at a
      time. */
  lemma {:induction false} DialogBalance(s: DialogState, p: Platform, evs: seq<DialogEvent>)
    ensures Requests(RunDialog(s, p, evs).effects) + B2N(s.open)
         == ClosesWhileOpen(s, p, evs) + B2N(RunDialog(s, p, evs).state.open)
    decreases |evs|
  {
    if evs != [] {
      var first := DialogStep(s, p, evs[0]);
      DialogBalance(first.state, p, evs[1..]);
      RequestsAppend(first.effects, RunDialog(first.state, p, evs[1..]).effects);
      StepRequests(s, p, evs[0]);
    }
  }

  /** Starting with no dialog open, at most one more dialog has been
      requested than callbacks have closed. */
  lemma AtMostOneOutstanding(p: Platform, evs: seq<DialogEvent>)
    ensures Requests(RunDialog(Idle, p, evs).effects) <= ClosesWhileOpen(Idle, p, evs) + 1
  {
    DialogBalance(Idle, p, evs);
  }

  /** After any callback a new browse request opens a dialog again. */
  lemma BrowseAfterClose(s: DialogState, p: Platform, selection: Option<seq<string>>)
    ensures OpenFolder(DialogClosed(s, selection).state, p).effects == [ShowOpenDialog(SelectionMode(p))]
  {
  }

  /** One `onComplete` callback of the fade-down animation. */
  function FadeComplete(fadeup: bool): (r: Step<bool>)
    ensures r.state
    ensures fadeup ==> r.effects == []
    ensures !fadeup ==> r.effects == [RevealProcessLog]
  {
    if fadeup then Step(true, []) else Step(true, [RevealProcessLog])
  }

  /** `n` successive `onComplete` callbacks within one import attempt. */
  function FadeCallbacks(fadeup: bool, n: nat): (r: Step<bool>)
    ensures r.state == (fadeup || n > 0)
    ensures forall i :: 0 <= i < |r.effects| ==> r.effects[i] == RevealProcessLog
    ensures |r.effects| == (if !fadeup && n > 0 then 1 else 0)
    decreases n
  {
    if n == 0 then Step(fadeup, [])
    else
      var first := FadeComplete(fadeup);
      var rest := FadeCallbacks(first.state, n - 1);
      Step(rest.state, first.effects + rest.effects)
  }

  /** For N >= 1 callbacks in a fresh import attempt, the process log is
      revealed exactly once. */
  lemma RevealedOnce(n: nat)
    requires n >= 1
    ensures FadeCallbacks(false, n).effects == [RevealProcessLog]
    ensures multiset(FadeCallbacks(false, n).effects)[RevealProcessLog] == 1
  {
  }
}

=== FILE: launch.dfy ===
/** `startLeague`: starting the game client and leaving. */
module Launch {
  import opened Values

  /** The command that starts the client, when one can be formed: on macOS
      the application bundle at the install path is opened; elsewhere the
      stored executable, joined onto the install path, is run. Joining onto
      an install path that was never stored throws, so no command exists. */
  function LaunchCommand(p: Platform, installPath: Option<string>, executable: Option<string>): Option<Command>
  {
    if p == Darwin then Some(OpenBundle(installPath))
    else if Present(executable) && installPath.Some? then Some(RunExecutable(installPath.value, executable.value))
    else None
  }

  /** The effects a launch attempt is made of. */
  predicate LaunchStage(x: Effect)
  {
    x.Spawn? || x == ScheduleQuit(QuitDelayMs) || x.LogLaunchError? || x.LaunchButtonError?
  }

  /** `startLeague`. With no executable name outside macOS the launch button
      turns into an error state and the process stays. */
  function StartLeague(p: Platform, installPath: Option<string>, executable: Option<string>): (r: seq<Effect>)
    ensures Spawns(r) <==> p == Darwin || (Present(executable) && installPath.Some?)
    ensures Exits(r) <==> Spawns(r)
    ensures Spawns(r) ==> |r| == 2 && r[0].Spawn? && r[1] == ScheduleQuit(QuitDelayMs)
    ensures p == Darwin ==> r[0] == Spawn(OpenBundle(installPath))
    ensures p != Darwin && Spawns(r) ==> r[0] == Spawn(RunExecutable(installPath.value, executable.value))
    ensures LaunchButtonError in r <==> p != Darwin && !Present(executable)
    ensures LogLaunchError in r <==> LaunchButtonError in r
    ensures forall x :: x in r ==> LaunchStage(x)
  {
    if p == Darwin then
      var r := [Spawn(OpenBundle(installPath)), ScheduleQuit(QuitDelayMs)];
      assert r[0] in r;
      r
    else if Present(executable) then
      if installPath.Some? then
        var r := [Spawn(RunExecutable(installPath.value, executable.value)), ScheduleQuit(QuitDelayMs)];
        assert r[0] in r;
        r
      else []
    else
      [LogLaunchError, LaunchButtonError]
  }

  /** The launch decision agrees with the command table: a spawn happens
      exactly when a command can be formed, and it is that command. */
  lemma LaunchFollowsCommand(p: Platform, installPath: Option<string>, executable: Option<string>)
    ensures var r := StartLeague(p, installPath, executable);
            match LaunchCommand(p, installPath, executable)
            case Some(c) => r == [Spawn(c), ScheduleQuit(QuitDelayMs)]
            case None => !Spawns(r) && !Exits(r)
  {
  }
}

=== FILE: pipelines.dfy ===
/** `importItemSets` and `deleteItemSets`, each behind the install-path gate,
    and the `#import_btn` handler. */
module Pipelines {
  import opened Values
  import Guards

  /** The effects of an import attempt and the value its promise resolves
      to (truthy or not). */
  datatype Imported = Imported(effects: seq<Effect>, completed: bool)

  /** The install-path gate: import and delete need a stored path. */
  predicate PathGate(e: Env)
  {
    Present(e.installPath)
  }

  /** The effects an import attempt is made of. */
  predicate ImportStage(x: Effect)
  {
    x.CallVerifySettings? || x.HideVersionButtons? || x.FadeDownOptions? || x.CallRun?
    || x.RevealProcessLog? || (x.EndSession? && x.failure.EngineError?)
  }

  /** The synchronous part of an import past the gate and past
      `verifySettings`: the version buttons hide, the options fade out, the
      engine starts once, and the fade guard lets the process log be
      revealed once if any animation callback arrives. */
  function Started(fadeCallbacks: nat): (r: seq<Effect>)
    ensures forall x :: x in r ==> ImportStage(x) && !x.EndSession?
    ensures |r| > 0 && r[0] == CallVerifySettings
    ensures multiset(r)[CallRun] == 1
    ensures multiset(r)[RevealProcessLog] == (if fadeCallbacks > 0 then 1 else 0)
  {
    [CallVerifySettings, HideVersionButtons, FadeDownOptions, CallRun]
    + Guards.FadeCallbacks(false, fadeCallbacks).effects
  }

  /** After `verifySettings` and before the engine starts, the version
      buttons hide and the options begin to fade out, in that order. */
  lemma StartedOrder(fadeCallbacks: nat)
    ensures var r := Started(fadeCallbacks);
            |r| >= 4 && r[1] == HideVersionButtons && r[2] == FadeDownOptions && r[3] == CallRun
  {
  }

  /** A whole import past the gate and past `verifySettings`: a rejected
      engine run, and only that, ends the session, and the attempt resolves
      to the engine's value or else to the terminator's. */
  function EngineRun(fadeCallbacks: nat, run: RunOutcome): (r: Imported)
    ensures forall x :: x in r.effects ==> ImportStage(x)
    ensures |r.effects| > 0 && r.effects[0] == CallVerifySettings
    ensures multiset(r.effects)[CallRun] == 1
    ensures multiset(r.effects)[RevealProcessLog] == (if fadeCallbacks > 0 then 1 else 0)
    ensures EndsSession(r.effects) <==> run.Rejected?
    ensures r.completed == (if run.Resolved? then run.completed else run.sessionValue)
  {
    var started := Started(fadeCallbacks);
    match run
    case Resolved(ok) => Imported(started, ok)
    case Rejected(reason, sessionValue) =>
      var effects := started + [EndSession(EngineError(reason))];
      assert EndSession(EngineError(reason)) in effects;
      Imported(effects, sessionValue)
  }

  /** Effects made only of import stages neither warn, delete, launch nor
      quit. */
  lemma StagedStays(effects: seq<Effect>)
    requires forall x :: x in effects ==> ImportStage(x)
    ensures FolderWarning !in effects && !Exits(effects) && CallDelete(true) !in effects && !Spawns(effects)
  {
  }

  /** An import past the gate neither warns, deletes, launches nor quits. */
  lemma EngineRunStays(fadeCallbacks: nat, run: RunOutcome)
    ensures var effects := EngineRun(fadeCallbacks, run).effects;
            FolderWarning !in effects && !Exits(effects) && CallDelete(true) !in effects && !Spawns(effects)
  {
    StagedStays(EngineRun(fadeCallbacks, run).effects);
  }

  /** `importItemSets`. Without a stored path only the warning is shown and
      the attempt resolves falsy, before `verifySettings` is asked; settings
      that fail verification also resolve falsy, and the engine runs exactly
      when both checks pass. */
  function ImportItemSets(e: Env): (r: Imported)
    ensures !PathGate(e) ==> r == Imported([FolderWarning], false)
    ensures PathGate(e) ==> |r.effects| > 0 && r.effects[0] == CallVerifySettings
    ensures CallRun in r.effects <==> PathGate(e) && e.settingsValid
    ensures r.completed ==> CallRun in r.effects
    ensures CompleteView !in r.effects
    ensures PathGate(e) && !e.settingsValid ==> r == Imported([CallVerifySettings], false)
    ensures PathGate(e) && e.settingsValid ==>
              r.completed == (if e.run.Resolved? then e.run.completed else e.run.sessionValue)
  {
    if !PathGate(e) then Imported([FolderWarning], false)
    else if !e.settingsValid then Imported([CallVerifySettings], false)
    else EngineRun(e.fadeCallbacks, e.run)
  }

  /** Within one import attempt the process log is revealed once when any
      animation callback arrives, and the engine is called at most once;
      a rejected engine run, and only that, ends the session. */
  lemma ImportGuards(e: Env)
    ensures var effects := ImportItemSets(e).effects;
            && multiset(effects)[CallRun] <= 1
            && multiset(effects)[RevealProcessLog] == (if CallRun in effects && e.fadeCallbacks > 0 then 1 else 0)
            && (EndsSession(effects) <==> CallRun in effects && e.run.Rejected?)
  {
  }

  /** No import attempt warns once a path is stored, deletes, launches or
      quits. */
  lemma ImportStays(e: Env)
    ensures var effects := ImportItemSets(e).effects;
            && (FolderWarning in effects <==> !PathGate(e))
            && !Exits(effects) && CallDelete(true) !in effects && !Spawns(effects)
  {
    if PathGate(e) && e.settingsValid {
      EngineRunStays(e.fadeCallbacks, e.run);
    }
  }

  /** `deleteItemSets`. Without a stored path only the warning is shown and
      the delete engine is never called; otherwise the notification opens,
      the engine deletes with confirmation, and the check mark appears only
      if its promise resolves (a rejection has no handler). */
  function DeleteItemSets(e: Env): (r: seq<Effect>)
    ensures !PathGate(e) ==> r == [FolderWarning]
    ensures CallDelete(true) in r <==> PathGate(e)
    ensures FolderWarning in r <==> !PathGate(e)
    ensures MarkDeleted in r <==> PathGate(e) && e.deleteResolves
    ensures ShowDeleteNotification in r <==> PathGate(e)
    ensures multiset(r)[CallDelete(true)] == (if PathGate(e) then 1 else 0)
    ensures PathGate(e) ==> |r| >= 2 && r[0] == ShowDeleteNotification && r[1] == CallDelete(true)
    ensures MarkDeleted in r ==> r[|r| - 1] == MarkDeleted && multiset(r)[MarkDeleted] == 1
    ensures forall x :: x in r ==> x == FolderWarning || x == ShowDeleteNotification || x == CallDelete(true) || x == MarkDeleted
    ensures !Exits(r) && !Spawns(r) && !EndsSession(r) && CallRun !in r && CallVerifySettings !in r
  {
    if !PathGate(e) then [FolderWarning]
    else [ShowDeleteNotification, CallDelete(true)] + (if e.deleteResolves then [MarkDeleted] else [])
  }

  /** The `#import_btn` handler: the view completes after an import that
      resolved truthy, and only then, as the last step. */
  function ImportButton(e: Env): (r: seq<Effect>)
    ensures CompleteView in r <==> ImportItemSets(e).completed
    ensures CompleteView in r ==> PathGate(e) && e.settingsValid && r[|r| - 1] == CompleteView
    ensures !PathGate(e) ==> r == [FolderWarning]
    ensures ImportItemSets(e).effects <= r && |r| <= |ImportItemSets(e).effects| + 1
    ensures !ImportItemSets(e).completed ==> r == ImportItemSets(e).effects
  {
    var imported := ImportItemSets(e);
    imported.effects + (if imported.completed then [CompleteView] else [])
  }

  /** A click on `#import_btn` runs the engine at most once and never
      quits, deletes or launches the client; the view completes only after
      an engine run that resolved truthy, or whose rejection the terminator
      answered truthy. */
  lemma ImportButtonStays(e: Env)
    ensures var r := ImportButton(e);
            && multiset(r)[CallRun] <= 1
            && !Exits(r) && CallDelete(true) !in r && !Spawns(r)
            && (CompleteView in r ==> CallRun in r)
  {
    var imported := ImportItemSets(e);
    ImportGuards(e);
    ImportStays(e);
    CompletionStays(imported.effects, imported.completed);
  }

  /** Appending the view completion to a quiet import keeps it quiet. */
  lemma CompletionStays(effects: seq<Effect>, completed: bool)
    requires multiset(effects)[CallRun] <= 1
    requires !Exits(effects) && CallDelete(true) !in effects && !Spawns(effects)
    requires completed ==> CallRun in effects
    requires CompleteView !in effects
    ensures var r := effects + (if completed then [CompleteView] else []);
            && multiset(r)[CallRun] <= 1
            && !Exits(r) && CallDelete(true) !in r && !Spawns(r)
            && (CompleteView in r ==> CallRun in r)
  {
    var tail := if completed then [CompleteView] else [];
    var r := effects + tail;
    assert multiset(r) == multiset(effects) + multiset(tail);
    forall x | x in r
      ensures x != Quit && x != ScheduleQuit(QuitDelayMs) && x != CallDelete(true) && !x.Spawn?
    {
      assert x in effects || x in tail;
    }
  }

  /** The gate in both pipelines: with no stored path neither engine is
      touched and nothing but the warning happens. */
  lemma GateBlocksEngines(e: Env)
    requires !PathGate(e)
    ensures ImportItemSets(e).effects == DeleteItemSets(e) == [FolderWarning]
    ensures !TouchesEngine(ImportItemSets(e).effects) && !TouchesEngine(DeleteItemSets(e))
    ensures !ImportItemSets(e).completed
  {
  }
}

=== FILE: startup.dfy ===
/** The continuation of `viewManager.init()`: the update check's answer is
    interpreted before anything else, and automation runs only when the
    check reports no version. */
module Startup {
  import opened Values
  import Automation

  /** The five outcomes of the handshake, each by its own condition. */
  predicate RelaunchCase(version: Option<string>, f: Flags, p: Platform)
  {
    Present(version) && f.update && p == Win32 && !f.runnedAsAdmin
  }

  predicate UpdateFailureCase(version: Option<string>, f: Flags, p: Platform)
  {
    Present(version) && f.update && (p != Win32 || f.runnedAsAdmin)
  }

  predicate MajorCase(version: Option<string>, major: bool, f: Flags)
  {
    Present(version) && !f.update && major
  }

  predicate MinorCase(version: Option<string>, major: bool, f: Flags)
  {
    Present(version) && !f.update && !major
  }

  predicate AutomationCase(version: Option<string>)
  {
    !Present(version)
  }

  /** The handshake on the update check's `(version, major)`. A version with
      `--update` on Windows, not yet elevated, relaunches the executable
      elevated with the marker; with `--update` anywhere else the session
      ends in an update error. A version without `--update` shows the major
      or minor update view. Only without a version does automation run. */
  function Handshake(version: Option<string>, major: bool, f: Flags, e: Env): (r: seq<Effect>)
    ensures RelaunchCase(version, f, e.platform) ==> r == [RelaunchElevated([AdminMarker])]
    ensures UpdateFailureCase(version, f, e.platform) ==> r == [EndSession(UpdateError(AutoUpdateMessage))]
    ensures MajorCase(version, major, f) ==> r == [MajorUpdate(version.value)]
    ensures MinorCase(version, major, f) ==> r == [MinorUpdate(version.value)]
    ensures AutomationCase(version) ==> r == Automation.ExecuteOptionParameters(f, e)
  {
    if Present(version) && f.update then
      if e.platform == Win32 && !f.runnedAsAdmin then [RelaunchElevated([AdminMarker])]
      else [EndSession(UpdateError(AutoUpdateMessage))]
    else if Present(version) && major then [MajorUpdate(version.value)]
    else if Present(version) then [MinorUpdate(version.value)]
    else Automation.ExecuteOptionParameters(f, e)
  }

  function CaseCount(version: Option<string>, major: bool, f: Flags, p: Platform): nat
  {
    (if RelaunchCase(version, f, p) then 1 else 0)
    + (if UpdateFailureCase(version, f, p) then 1 else 0)
    + (if MajorCase(version, major, f) then 1 else 0)
    + (if MinorCase(version, major, f) then 1 else 0)
    + (if AutomationCase(version) then 1 else 0)
  }

  /** The handshake takes exactly one branch for every input. */
  lemma ExactlyOneBranch(version: Option<string>, major: bool, f: Flags, p: Platform)
    ensures CaseCount(version, major, f, p) == 1
  {
  }

  /** Automation runs exactly when the check reports no version: every
      update branch is a single handshake effect and touches no engine,
      spawns nothing and issues no quit of its own. */
  lemma AutomationOnlyWithoutVersion(version: Option<string>, major: bool, f: Flags, e: Env)
    ensures var r := Handshake(version, major, f, e);
            && ((exists i :: 0 <= i < |r| && IsUpdateEffect(r[i])) <==> Present(version))
            && (Present(version) ==> |r| == 1 && !TouchesEngine(r) && !Spawns(r) && !Exits(r))
  {
    var r := Handshake(version, major, f, e);
    if Present(version) {
      assert IsUpdateEffect(r[0]);
    } else {
      Automation.AutomationNeverUpdates(f, e);
      forall i | 0 <= i < |r|
        ensures !IsUpdateEffect(r[i])
      {
        assert r[i] in r;
      }
    }
  }

  /** An elevated process that still asks for `--update` ends in the update
      error instead of relaunching again. */
  lemma NoRelaunchLoop(version: Option<string>, major: bool, f: Flags, e: Env)
    requires RelaunchCase(version, f, e.platform)
    ensures Handshake(version, major, f.(runnedAsAdmin := true), e) == [EndSession(UpdateError(AutoUpdateMessage))]
  {
  }

  /** The option parser's reading of a command line, taken as: each switch
      holds exactly when its flag is among the arguments. */
  function SwitchesOf(args: seq<string>): Flags
  {
    Flags(
      deleteSets := "--delete" in args,
      importSets := "--import" in args,
      autorun := "--autorun" in args,
      close := "--close" in args,
      startLeague := "--startLeague" in args,
      update := "--update" in args,
      runnedAsAdmin := AdminMarker in args)
  }

  /** The elevated relaunch carries the marker and nothing else, so the
      relaunched process sees itself elevated and sees no update or
      automation switch, whatever the original process was given. */
  lemma RelaunchedSwitches(version: Option<string>, major: bool, f: Flags, e: Env)
    requires RelaunchCase(version, f, e.platform)
    ensures var r := Handshake(version, major, f, e);
            && |r| == 1 && r[0].RelaunchElevated?
            && var g := SwitchesOf(r[0].args);
            && g.runnedAsAdmin && !g.update
            && !g.deleteSets && !g.importSets && !g.autorun && !g.close && !g.startLeague
  {
  }

  /** The relaunched process, finding the same version, shows the update
      view rather than updating silently or relaunching again: the relaunch
      dropped `--update`. */
  lemma RelaunchShowsUpdateView(version: Option<string>, major: bool, f: Flags, e: Env)
    requires RelaunchCase(version, f, e.platform)
    ensures var g := SwitchesOf(Handshake(version, major, f, e)[0].args);
            Handshake(version, major, g, e) == [if major then MajorUpdate(version.value) else MinorUpdate(version.value)]
  {
    RelaunchedSwitches(version, major, f, e);
  }
}

=== FILE: values.dfy ===
/** The values the renderer entry point of Championify exchanges with the
    outside world: what its collaborators (settings store, option parser,
    update checker, import engine, Electron) hand it, and the effects it asks
    of them. Every decision of the entry point is a pure function from the
    former to a sequence of the latter. */
module Values {

  datatype Option<+T> = None | Some(value: T)

  /** `process.platform`, as far as the entry point tells platforms apart. */
  datatype Platform = Darwin | Win32 | OtherPlatform

  /** JavaScript truthiness of a string read from the settings store or
      handed over by a collaborator: `undefined` and `""` are both falsy. */
  predicate Present(v: Option<string>)
  {
    v.Some? && v.value != ""
  }

  /** The command-line switches, each an independent boolean query of the
      option parser (`--delete`, `--import`, `--autorun`, `--close`,
      `--startLeague`, `--update`, and the `--startAsAdmin` marker). */
  datatype Flags = Flags(
    deleteSets: bool,
    importSets: bool,
    autorun: bool,
    close: bool,
    startLeague: bool,
    update: bool,
    runnedAsAdmin: bool)

  /** Errors handed to the session terminator. */
  datatype Failure =
    | UpdateError(message: string)
    | EngineError(reason: string)

  /** How the import engine's promise settles. A rejection is caught and
      passed to the session terminator, whose return value (truthy or not)
      becomes the value the import resolves to. */
  datatype RunOutcome =
    | Resolved(completed: bool)
    | Rejected(reason: string, sessionValue: bool)

  /** Everything the collaborators of one operation answer: the platform,
      the stored install path and executable name, the result of
      `verifySettings`, the engine outcomes, and how many `onComplete`
      callbacks the fade-down animation delivers. */
  datatype Env = Env(
    platform: Platform,
    installPath: Option<string>,
    executable: Option<string>,
    settingsValid: bool,
    run: RunOutcome,
    fadeCallbacks: nat,
    deleteResolves: bool)

  /** Selection mode requested from the native open dialog. */
  datatype DialogMode = OpenFile | OpenDirectory

  /** What is handed to the shell to start the game client. */
  datatype Command =
    | OpenBundle(bundle: Option<string>)
    | RunExecutable(dir: string, exe: string)

  datatype Effect =
    | ShowOpenDialog(mode: DialogMode)
    | CheckInstallPath(selection: seq<string>)
    | FolderWarning
    | CallVerifySettings
    | HideVersionButtons
    | FadeDownOptions
    | RevealProcessLog
    | CallRun
    | ShowDeleteNotification
    | CallDelete(confirm: bool)
    | MarkDeleted
    | EndSession(failure: Failure)
    | Spawn(command: Command)
    | ScheduleQuit(delayMs: nat)
    | Quit
    | LogLaunchError
    | LaunchButtonError
    | CompleteView
    | RelaunchElevated(args: seq<string>)
    | MajorUpdate(version: string)
    | MinorUpdate(version: string)

  /** Delay between spawning the game client and quitting. */
  const QuitDelayMs: nat := 500

  /** Marker argument of the elevated relaunch. */
  const AdminMarker: string := "--startAsAdmin"

  const AutoUpdateMessage: string := "Can't auto update, please redownload"

  ghost predicate Spawns(effects: seq<Effect>)
  {
    exists c :: Spawn(c) in effects
  }

  ghost predicate EndsSession(effects: seq<Effect>)
  {
    exists f :: EndSession(f) in effects
  }

  /** The process exits, now or after the launch delay. */
  predicate Exits(effects: seq<Effect>)
  {
    Quit in effects || ScheduleQuit(QuitDelayMs) in effects
  }

  /** Calls into the item-set engine. */
  predicate TouchesEngine(effects: seq<Effect>)
  {
    CallVerifySettings in effects || CallRun in effects || CallDelete(true) in effects
  }

  /** Effects only the update handshake produces. */
  predicate IsUpdateEffect(e: Effect)
  {
    e.RelaunchElevated? || e.MajorUpdate? || e.MinorUpdate? || (e.EndSession? && e.failure.UpdateError?)
  }
}
